=== FILE: README.md ===
# Sphero BOLT+ command protocol engine, modelled in Dafny

This project models the protocol engine of the `SpheroBoltPlus` driver class in
`SBP_SDK.py`. It has three parts:

- **Packet codec** (`codec.dfy`, module `Codec`). The one-octet checksum is the
  low octet of the sum of header and payload, with every bit inverted. The
  framing is `0x8D ++ header ++ payload ++ checksum ++ 0xD8`.
- **Command encoders** (`commands.dfy`, module `Commands`). `drive`,
  `set_main_led` and `set_matrix_led` clamp their integer arguments into range.
  They then pack them into 4-, 3- and 5-octet payloads behind a fixed 6-octet
  header. The wake packet is a fixed literal.
- **Session flags** (`device.dfy`, module `Device`). The two booleans
  `is_connected` and `is_awake` are changed by `connect`, `disconnect` and
  `wake`. The commands pass through a guard that requires both flags.

Octets are `int`s in 0..255 (`Codec.Byte`), and packets are `seq<Byte>`. The
transport is abstract. Each open, characteristic lookup, write and close is a
`bool` parameter saying whether it succeeded; a raised exception counts as
`false`. A characteristic lookup that raises skips the close and goes straight
to the exception handler. It is therefore the pair `charFound = false`,
`closeOk = false`. A session is the record `(connected, awake, writes)`. `writes` lists,
in order, every packet handed to the transport's write, whether or not the
write succeeded. So "no write happened" means the list did not grow.

The driver never reads anything back from the device. Two functions here
therefore have no counterpart in the driver. `Codec.Deframe` and
`Commands.Decode` read a packet back into header, payload and intent. They are
reference definitions: they let the framing and the encoders be proved exact
(round trips in both directions) and unambiguous.

Where the code behaves differently from what a reader might expect:

- "awake implies connected" does not hold.
  `Device.AwakeWithoutConnection` shows how it breaks: a successful connect,
  then a connect whose open fails. The failed connect clears only
  `is_connected`.
- `wake` has no connection check.
- `connect` returns true even when the wake write fails.
- A successful `connect` writes exactly one packet, the wake packet.
- `disconnect` on a session that is not connected returns true without
  touching the flags. A stale awake flag therefore survives it.
- If the characteristic is missing, `connect` closes the link, and a successful
  close leaves `is_connected` as it was. A failing close ends in the exception
  handler, which clears `is_connected`.

## Model

| member | source | states |
|---|---|---|
| Codec.SumAppend | SBP_SDK.py:287 | `Codec.Sum` models Python's `sum` over octets (SBP_SDK.py:310); the sum over `header + payload` is the sum over the header plus the sum over the payload |
| Codec.SumUpdate | SBP_SDK.py:310 | replacing one octet moves the sum by exactly the difference of old and new octet |
| Codec.XorOnesIsComplement | SBP_SDK.py:313 | `Codec.Xor` models Python's `^` on non-negative integers, bit by bit; `^` with a mask of k one-bits is the one's complement of any k-bit number, so `^ 0xFF` is `255 - x` |
| Codec.Checksum | SBP_SDK.py:299-313 | the checksum is an octet equal to 255 minus the sum modulo 256, so sum plus checksum is 255 modulo 256 |
| Codec.ChecksumDetectsSingleByteChange | SBP_SDK.py:299-313 | changing any single octet of the checked data changes the checksum |
| Codec.Frame | SBP_SDK.py:286-290 | a packet is 3 octets longer than header plus payload; it starts with 0x8D and ends with 0xD8; header and payload sit unchanged in between; the checksum of header plus payload is second to last |
| Codec.DeframeFrame | SBP_SDK.py:286-290 | every framed packet is accepted by the reference reader, which returns exactly the header and payload |
| Codec.DeframeSound | SBP_SDK.py:286-290 | every packet the reference reader accepts is the framing of the header and payload it returns |
| Codec.FrameSumCheck | SBP_SDK.py:287-290 | in every packet the octets between the markers, checksum included, sum to 255 modulo 256 |
| Commands.Clamp | SBP_SDK.py:194-195 | `max(lo, min(hi, v))` lies in `[lo, hi]`; it keeps in-range values and sends values below or above to the nearest bound, never wrapping |
| Commands.PackU16 | SBP_SDK.py:199 | the `>H` packing gives two octets, high octet first, whose big-endian value is the input |
| Commands.DrivePayload | SBP_SDK.py:194-199 | the drive payload is 4 octets: the clamped speed, the clamped heading big-endian over two octets, and a flag that is 1 exactly when `reverse` is set and 0 otherwise |
| Commands.MainLedPayload | SBP_SDK.py:224-229 | the main-LED payload is 3 octets: red, green and blue, each clamped to [0,255], in that order |
| Commands.MatrixLedPayload | SBP_SDK.py:256-263 | the matrix payload is 5 octets: x and y clamped to [0,7], then the three channels clamped to [0,255] in the order of the main-LED payload |
| Commands.Normalize | SBP_SDK.py:255-260 | every argument of every command is clamped on its own, as `Commands.Clamp` states: an in-range argument is kept and an out-of-range one goes to its nearest bound; the kind of command and the reverse flag are kept, and the result is in range |
| Commands.Header | SBP_SDK.py:202 | every command's header is 6 octets from `0x38` to `0xFF`; the fourth octet names the command: 0x13 wake, 0x16 drive, 0x20 main LED, 0x2D matrix LED |
| Commands.HeadersDistinct | SBP_SDK.py:232 | two commands share a header exactly when they are the same kind of command |
| Commands.Payload | SBP_SDK.py:263 | the payload length is fixed by the command: 0 for wake, 4 for drive, 3 for main LED, 5 for matrix LED |
| Commands.Encode | SBP_SDK.py:199-202 | each command's packet has its own fixed 6-octet header and a payload length fixed per command (wake 0, drive 4, main LED 3, matrix 5) |
| Commands.EncodeNormalize | SBP_SDK.py:224-232 | a command and its clamped form write the same packet |
| Commands.DecodeEncode | SBP_SDK.py:263-269 | reading back any command's packet gives the command with its arguments clamped |
| Commands.EncodeDecode | SBP_SDK.py:286-290 | every packet the reference reader accepts is the encoder's packet for the command read |
| Commands.EncodeInjective | SBP_SDK.py:199-202 | two commands write the same packet exactly when they agree once clamped |
| Commands.WakeChecksum | SBP_SDK.py:166 | the wake header's octets give checksum 0x96 |
| Commands.WakeFrameMatchesCodec | SBP_SDK.py:166 | the literal wake packet `8D 38 11 01 13 0D FF 96 D8` is the generic framing of the wake header with an empty payload, and also of `38 11 01 13` with payload `0D FF`; it reads back as the wake command |
| Commands.DriveClampExample | SBP_SDK.py:194-195 | `drive(300, 400, False)` writes the same packet as `drive(255, 359, False)`, whose payload is `FF 01 67 00` |
| Commands.MatrixClampExample | SBP_SDK.py:256-257 | `set_matrix_led(10, -1, ...)` addresses pixel (7, 0) |
| Device.Wake | SBP_SDK.py:158-175 | wake always writes the wake packet and returns the write's outcome; it sets the awake flag only on success and never touches the connection flag |
| Device.Connect | SBP_SDK.py:102-136 | connect succeeds exactly when the open succeeds and the characteristic is found; success sets the connection flag and writes only the wake packet, whatever the wake's result; a failed open clears only the connection flag; a missing characteristic never sets it and clears it only when the close fails; connect never clears the awake flag |
| Device.Disconnect | SBP_SDK.py:138-156 | disconnect never writes. When not connected it returns true and changes nothing. A successful close clears both flags. A failed close returns false and changes nothing |
| Device.SendCommand | SBP_SDK.py:271-297 | when not connected, nothing is written and the result is false; otherwise one packet is appended that reads back as the given header and payload, the result is the write's outcome, and both flags are kept |
| Device.Guarded | SBP_SDK.py:189-191 | unless both flags hold, a command returns false and the session, trace included, is unchanged; otherwise one packet is written that reads back as the clamped command, and the result is the write's outcome |
| Device.Drive | SBP_SDK.py:177-205 | drive is guarded; when ready it writes the drive packet, which reads back as the clamped speed, clamped heading and reverse flag, and returns the write's outcome with the flags unchanged |
| Device.SetMainLed | SBP_SDK.py:207-235 | set_main_led is guarded; when ready it writes the main-LED packet, which reads back as the three clamped channels, and returns the write's outcome with the flags unchanged |
| Device.SetMatrixLed | SBP_SDK.py:237-269 | set_matrix_led is guarded; when ready it writes the matrix packet, which reads back as the clamped position and colour, and returns the write's outcome with the flags unchanged |
| Device.ApplyStep | SBP_SDK.py:189-191 | any single call appends at most one packet, keeps the earlier trace, and keeps every packet readable and the awake flag backed by a wake packet; a packet other than the wake packet is appended only when both flags held |
| Device.RunInvariant | SBP_SDK.py:102-297 | over any sequence of calls the trace only grows, every packet in it is a valid command packet, and the awake flag is set only after a wake packet was written |
| Device.ReachableTraceDecodes | SBP_SDK.py:29-33 | from a freshly constructed driver, every packet ever written is a valid command packet, and awake implies a wake packet was written |
| Device.AwakeWithoutConnection | SBP_SDK.py:129-135 | a successful connect followed by a connect whose open fails leaves the driver awake but not connected |
| Device.ConnectWritesOnlyWake | SBP_SDK.py:125-131 | a successful connect appends only the wake packet; from a fresh driver it ends connected, with awake equal to the wake's outcome and the wake packet as the only write |
| Device.DisconnectIdempotent | SBP_SDK.py:145-153 | after a disconnect that reported success, a second disconnect returns true and changes nothing |

## Left out

- Device discovery (`scan_for_devices`): this is I/O through the BLE library's scanner and its result shapes.
- The distance estimate from signal strength (`_calculate_distance_from_rssi`): this is floating-point arithmetic.
- The conditional import of the BLE library in the constructor, and the logging setup: these are library wiring. Log calls have no effect on the flags.
- async/await, `write_gatt_char`, `BleakClient.connect`/`disconnect` and `get_characteristic`: each becomes a success/failure parameter. There is no concurrency to model.
- The service and characteristic UUID constants: these identifiers are used only by the transport.
- The example `main` program and its `asyncio.sleep` calls: these are example usage.
- The transport handle (`self.device`, `self.characteristic`): the abstract outcome parameters stand in for it. A write on a driver that was never connected (`self.device` is `None`) always raises inside `wake`'s `try`, so the caller should pass `writeOk = false` there. Nothing in the model enforces this, so the model admits more reachable states than the code has. For example, `Device.Wake(Initial, true)` is awake but not connected.
- The default `reverse=False` of `drive`: the model's `Drive` always takes the flag explicitly.
- Arguments that are not integers: a float speed passes `max`/`min`, and then `struct.pack` raises an exception that nothing catches. All arguments here are `int`.
- Device.Wake: the trace records the wake packet even when the write fails, including the case where `self.device` is `None`. In that case no transport call is really made. The trace lists write attempts, not deliveries.

=== FILE: codec.dfy ===
/**
 The packet codec of the Sphero BOLT+ driver: the one-byte checksum and the
 framing `SOP ++ header ++ payload ++ checksum ++ EOP` that every command uses
 on the wire (SBP_SDK.py, `_calculate_checksum` and `_send_command`).

 `Deframe` has no counterpart in the driver, whose channel is write-only; it is
 the reference inverse against which the framing is proved exact.
 */
module Codec {
  import opened Wrappers

  /** An octet, as held in a Python `bytearray`. */
  type Byte = b: int | 0 <= b < 256

  /** Start-of-packet marker. */
  const SOP: Byte := 0x8D
  /** End-of-packet marker. */
  const EOP: Byte := 0xD8

  /** Python's `sum` over a byte sequence: the unbounded sum of its octets. */
  function Sum(data: seq<Byte>): nat {
    if |data| == 0 then 0 else data[0] + Sum(data[1..])
  }

  lemma {:induction false} SumAppend(a: seq<Byte>, b: seq<Byte>)
    ensures Sum(a + b) == Sum(a) + Sum(b)
  {
    if |a| == 0 {
      assert a + b == b;
    } else {
      assert (a + b)[1..] == a[1..] + b;
      SumAppend(a[1..], b);
    }
  }

  /** Replacing one octet moves the sum by exactly the difference of the two octets. */
  lemma {:induction false} SumUpdate(a: seq<Byte>, i: nat, v: Byte)
    requires i < |a|
    ensures Sum(a[i := v]) == Sum(a) - a[i] + v
  {
    if i == 0 {
      assert a[i := v][1..] == a[1..];
    } else {
      assert a[i := v][1..] == a[1..][i - 1 := v];
      SumUpdate(a[1..], i - 1, v);
    }
  }

  /** 2 to the power `k`; being at least 1, `Pow2(k) - 1` is the natural number with `k` one-bits. */
  function Pow2(k: nat): (p: nat)
    ensures p >= 1
  {
    if k == 0 then 1 else 2 * Pow2(k - 1)
  }

  /** Python's `^` on non-negative integers, taken one bit at a time from the low end. */
  function Xor(a: nat, b: nat): nat
    decreases a + b
  {
    if a == 0 then b
    else if b == 0 then a
    else 2 * Xor(a / 2, b / 2) + (a % 2 + b % 2) % 2
  }

  /** Exclusive or with `k` one-bits flips every bit of a `k`-bit number: it is the one's complement. */
  lemma {:induction false} XorOnesIsComplement(a: nat, k: nat)
    requires a < Pow2(k)
    ensures Xor(a, Pow2(k) - 1) == Pow2(k) - 1 - a
  {
    if a != 0 {
      var n := Pow2(k - 1);
      var ones := 2 * n - 1;
      assert Pow2(k) - 1 == ones;
      assert ones / 2 == n - 1 && ones % 2 == 1;
      assert a / 2 < n;
      XorOnesIsComplement(a / 2, k - 1);
      assert Xor(a, ones) == 2 * (n - 1 - a / 2) + (a % 2 + 1) % 2;
      assert a == 2 * (a / 2) + a % 2;
    }
  }

  /**
   The checksum of `_calculate_checksum`: the low octet of the sum (`& 0xFF`,
   which on a non-negative sum is `% 256`), with every bit inverted (`^ 0xFF`).
   */
  function Checksum(data: seq<Byte>): (c: Byte)
    ensures c == 255 - Sum(data) % 256
    ensures (Sum(data) + c) % 256 == 255
  {
    assert Pow2(8) == 256;
    XorOnesIsComplement(Sum(data) % 256, 8);
    Xor(Sum(data) % 256, 0xFF)
  }

  /** A change to any single octet of the checked data changes the checksum. */
  lemma ChecksumDetectsSingleByteChange(data: seq<Byte>, i: nat, v: Byte)
    requires i < |data| && v != data[i]
    ensures Checksum(data[i := v]) != Checksum(data)
  {
    SumUpdate(data, i, v);
  }

  /** The packet `_send_command` builds: markers, header, payload, checksum over header and payload. */
  function Frame(header: seq<Byte>, payload: seq<Byte>): (f: seq<Byte>)
    ensures |f| == |header| + |payload| + 3
    ensures f[0] == SOP && f[|f| - 1] == EOP
    ensures f[1..1 + |header|] == header
    ensures f[1 + |header|..|f| - 2] == payload
    ensures f[|f| - 2] == Checksum(header + payload)
  {
    [SOP] + header + payload + [Checksum(header + payload), EOP]
  }

  /**
   Splits a packet whose header has `headerLen` octets back into header and
   payload, refusing it unless both markers are in place and the checksum agrees.
   */
  function Deframe(f: seq<Byte>, headerLen: nat): (r: Option<(seq<Byte>, seq<Byte>)>)
    ensures r.Some? ==> |r.value.0| == headerLen && |f| == headerLen + |r.value.1| + 3
  {
    if |f| < headerLen + 3 || f[0] != SOP || f[|f| - 1] != EOP then None
    else if f[|f| - 2] != Checksum(f[1..|f| - 2]) then None
    else Some((f[1..1 + headerLen], f[1 + headerLen..|f| - 2]))
  }

  /** Whatever `Deframe` accepts is exactly the frame of the header and payload it returns. */
  lemma DeframeSound(f: seq<Byte>, headerLen: nat)
    requires Deframe(f, headerLen).Some?
    ensures f == Frame(Deframe(f, headerLen).value.0, Deframe(f, headerLen).value.1)
  {
    var (header, payload) := Deframe(f, headerLen).value;
    var body := f[1..|f| - 2];
    assert body == header + payload;
    var g := Frame(header, payload);
    assert |g| == |f|;
    forall i | 0 <= i < |f|
      ensures f[i] == g[i]
    {
      if 1 <= i < |f| - 2 {
        assert f[i] == body[i - 1];
        assert g[i] == (header + payload)[i - 1];
      }
    }
  }

  /** Every framed packet is accepted by `Deframe`, which gives back the header and payload unchanged. */
  lemma DeframeFrame(header: seq<Byte>, payload: seq<Byte>)
    ensures Deframe(Frame(header, payload), |header|) == Some((header, payload))
  {
    var f := Frame(header, payload);
    assert f[1..|f| - 2] == header + payload;
  }

  /**
   A receiver's check: the octets between the markers, checksum included, sum
   to 255 modulo 256.
   */
  lemma FrameSumCheck(header: seq<Byte>, payload: seq<Byte>)
    ensures var f := Frame(header, payload); Sum(f[1..|f| - 1]) % 256 == 255
  {
    var f := Frame(header, payload);
    assert f[1..|f| - 1] == (header + payload) + [f[|f| - 2]];
    SumAppend(header + payload, [f[|f| - 2]]);
  }
}

=== FILE: commands.dfy ===
/**
 The command encoders of the Sphero BOLT+ driver (SBP_SDK.py, `drive`,
 `set_main_led`, `set_matrix_led` and the fixed wake packet): every integer
 argument is clamped into its range, packed into a fixed-length payload and
 framed behind a fixed six-octet header.

 `Decode` has no counterpart in the driver; it reads a packet back into the
 intent it carries and is the reference against which the encoders are proved
 exact and unambiguous.
 */
module Commands {
  import opened Wrappers
  import opened Codec

  const HeaderLength: nat := 6

  const DriveHeader: seq<Byte> := [0x38, 0x12, 0x01, 0x16, 0x07, 0xFF]
  const MainLedHeader: seq<Byte> := [0x38, 0x11, 0x01, 0x20, 0x07, 0xFF]
  const MatrixLedHeader: seq<Byte> := [0x38, 0x11, 0x01, 0x2D, 0x09, 0xFF]
  /** The header of the wake packet: its last two octets count as header, its payload is empty. */
  const WakeHeader: seq<Byte> := [0x38, 0x11, 0x01, 0x13, 0x0D, 0xFF]

  /** The wake packet exactly as the driver spells it out. */
  const WakeFrame: seq<Byte> := [0x8D, 0x38, 0x11, 0x01, 0x13, 0x0D, 0xFF, 0x96, 0xD8]

  const MaxSpeed := 255
  const MaxHeading := 359
  const MaxChannel := 255
  const MaxCoordinate := 7

  /** `max(lo, min(hi, v))`: values out of range go to the nearest bound, never wrap. */
  function Clamp(v: int, lo: int, hi: int): (r: int)
    requires lo <= hi
    ensures lo <= r <= hi
    ensures lo <= v <= hi ==> r == v
    ensures v < lo ==> r == lo
    ensures v > hi ==> r == hi
  {
    if v < lo then lo else if v > hi then hi else v
  }

  /** Big-endian unsigned 16-bit packing, struct format `>H`. */
  function PackU16(n: int): (r: seq<Byte>)
    requires 0 <= n < 65536
    ensures |r| == 2 && r[0] as int * 256 + r[1] == n
  {
    [n / 256, n % 256]
  }

  /** The payload of `drive`: speed, heading big-endian on two octets, the reverse flag. */
  function DrivePayload(speed: int, heading: int, reverse: bool): (p: seq<Byte>)
    ensures |p| == 4
    ensures p[0] == Clamp(speed, 0, MaxSpeed)
    ensures p[1] as int * 256 + p[2] == Clamp(heading, 0, MaxHeading)
    ensures p[3] <= 1 && (p[3] == 1 <==> reverse)
  {
    var s := Clamp(speed, 0, MaxSpeed);
    var h := Clamp(heading, 0, MaxHeading);
    [s] + PackU16(h) + [if reverse then 1 else 0]
  }

  /** The payload of `set_main_led`: the three clamped channels in the order red, green, blue. */
  function MainLedPayload(red: int, green: int, blue: int): (p: seq<Byte>)
    ensures |p| == 3
    ensures p[0] == Clamp(red, 0, MaxChannel)
    ensures p[1] == Clamp(green, 0, MaxChannel)
    ensures p[2] == Clamp(blue, 0, MaxChannel)
  {
    [Clamp(red, 0, MaxChannel), Clamp(green, 0, MaxChannel), Clamp(blue, 0, MaxChannel)]
  }

  /** The payload of `set_matrix_led`: clamped position, then clamped colour. */
  function MatrixLedPayload(x: int, y: int, red: int, green: int, blue: int): (p: seq<Byte>)
    ensures |p| == 5
    ensures p[0] == Clamp(x, 0, MaxCoordinate) && p[1] == Clamp(y, 0, MaxCoordinate)
    ensures p[2..] == MainLedPayload(red, green, blue)
  {
    [Clamp(x, 0, MaxCoordinate), Clamp(y, 0, MaxCoordinate)] + MainLedPayload(red, green, blue)
  }

  /** An intent the driver can put on the wire, with its arguments as the caller gave them. */
  datatype Command =
    | WakeCmd
    | DriveCmd(speed: int, heading: int, reverse: bool)
    | MainLedCmd(red: int, green: int, blue: int)
    | MatrixLedCmd(x: int, y: int, red: int, green: int, blue: int)

  predicate IsChannel(v: int) { 0 <= v <= MaxChannel }

  /** Every argument already lies in the range the encoder clamps it to. */
  predicate InRange(c: Command) {
    match c
    case WakeCmd => true
    case DriveCmd(speed, heading, _) => 0 <= speed <= MaxSpeed && 0 <= heading <= MaxHeading
    case MainLedCmd(r, g, b) => IsChannel(r) && IsChannel(g) && IsChannel(b)
    case MatrixLedCmd(x, y, r, g, b) =>
      0 <= x <= MaxCoordinate && 0 <= y <= MaxCoordinate && IsChannel(r) && IsChannel(g) && IsChannel(b)
  }

  /** The command with every argument clamped as the encoders clamp it. */
  function Normalize(c: Command): (n: Command)
    ensures InRange(n)
    ensures InRange(c) ==> n == c
    ensures n.WakeCmd? == c.WakeCmd? && n.DriveCmd? == c.DriveCmd? && n.MainLedCmd? == c.MainLedCmd?
    // each argument is clamped on its own: kept when in range, moved to the nearest bound otherwise
    ensures c.DriveCmd? ==> n.speed == Clamp(c.speed, 0, MaxSpeed)
                            && n.heading == Clamp(c.heading, 0, MaxHeading)
    ensures c.DriveCmd? ==> n.reverse == c.reverse
    ensures c.MatrixLedCmd? ==> n.x == Clamp(c.x, 0, MaxCoordinate) && n.y == Clamp(c.y, 0, MaxCoordinate)
    ensures c.MainLedCmd? || c.MatrixLedCmd? ==>
              && n.red == Clamp(c.red, 0, MaxChannel)
              && n.green == Clamp(c.green, 0, MaxChannel)
              && n.blue == Clamp(c.blue, 0, MaxChannel)
  {
    match c
    case WakeCmd => WakeCmd
    case DriveCmd(speed, heading, reverse) =>
      DriveCmd(Clamp(speed, 0, MaxSpeed), Clamp(heading, 0, MaxHeading), reverse)
    case MainLedCmd(r, g, b) =>
      MainLedCmd(Clamp(r, 0, MaxChannel), Clamp(g, 0, MaxChannel), Clamp(b, 0, MaxChannel))
    case MatrixLedCmd(x, y, r, g, b) =>
      MatrixLedCmd(Clamp(x, 0, MaxCoordinate), Clamp(y, 0, MaxCoordinate),
                Clamp(r, 0, MaxChannel), Clamp(g, 0, MaxChannel), Clamp(b, 0, MaxChannel))
  }

  /**
   The fixed header of each command: six octets, framed by `0x38` and `0xFF`,
   told apart by the fourth octet.
   */
  function Header(c: Command): (h: seq<Byte>)
    ensures |h| == HeaderLength
    ensures h[0] == 0x38 && h[5] == 0xFF
    ensures h[3] == (match c
                     case WakeCmd => 0x13
                     case DriveCmd(_, _, _) => 0x16
                     case MainLedCmd(_, _, _) => 0x20
                     case MatrixLedCmd(_, _, _, _, _) => 0x2D)
  {
    match c
    case WakeCmd => WakeHeader
    case DriveCmd(_, _, _) => DriveHeader
    case MainLedCmd(_, _, _) => MainLedHeader
    case MatrixLedCmd(_, _, _, _, _) => MatrixLedHeader
  }

  /** The payload length of each command, fixed by the kind of command alone. */
  function PayloadLength(c: Command): nat {
    match c
    case WakeCmd => 0
    case DriveCmd(_, _, _) => 4
    case MainLedCmd(_, _, _) => 3
    case MatrixLedCmd(_, _, _, _, _) => 5
  }

  /** The payload of each command. */
  function Payload(c: Command): (p: seq<Byte>)
    ensures |p| == PayloadLength(c)
  {
    match c
    case WakeCmd => []
    case DriveCmd(speed, heading, reverse) => DrivePayload(speed, heading, reverse)
    case MainLedCmd(r, g, b) => MainLedPayload(r, g, b)
    case MatrixLedCmd(x, y, r, g, b) => MatrixLedPayload(x, y, r, g, b)
  }

  /** The packet the driver writes for a command. */
  function Encode(c: Command): (f: seq<Byte>)
    ensures |f| == HeaderLength + PayloadLength(c) + 3
    ensures f[0] == SOP && f[|f| - 1] == EOP
    ensures f[1..1 + HeaderLength] == Header(c)
  {
    Frame(Header(c), Payload(c))
  }

  /** Reads a packet back into the (in-range) command it carries, if any. */
  function Decode(f: seq<Byte>): (r: Option<Command>)
    ensures r.Some? ==> InRange(r.value)
  {
    match Deframe(f, HeaderLength)
    case None => None
    case Some((header, p)) =>
      if header == WakeHeader && |p| == 0 then Some(WakeCmd)
      else if header == DriveHeader && |p| == 4
              && p[1] as int * 256 + p[2] <= MaxHeading && p[3] <= 1 then
        Some(DriveCmd(p[0], p[1] as int * 256 + p[2], p[3] == 1))
      else if header == MainLedHeader && |p| == 3 then
        Some(MainLedCmd(p[0], p[1], p[2]))
      else if header == MatrixLedHeader && |p| == 5
              && p[0] <= MaxCoordinate && p[1] <= MaxCoordinate then
        Some(MatrixLedCmd(p[0], p[1], p[2], p[3], p[4]))
      else None
  }

  /** Two commands share a header exactly when they are the same kind of command. */
  lemma HeadersDistinct(a: Command, b: Command)
    ensures Header(a) == Header(b)
            <==> (a.WakeCmd? == b.WakeCmd? && a.DriveCmd? == b.DriveCmd? && a.MainLedCmd? == b.MainLedCmd?)
  {
  }

  /** Clamping happens before encoding: a command and its clamped form produce the same packet. */
  lemma EncodeNormalize(c: Command)
    ensures Encode(Normalize(c)) == Encode(c)
  {
  }

  /** Decoding an encoded command yields the command with its arguments clamped. */
  lemma DecodeEncode(c: Command)
    ensures Decode(Encode(c)) == Some(Normalize(c))
  {
    DeframeFrame(Header(c), Payload(c));
    match c
    case WakeCmd =>
    case DriveCmd(speed, heading, reverse) =>
      var p := DrivePayload(speed, heading, reverse);
      assert p[3] == 1 <==> reverse;
    case MainLedCmd(_, _, _) =>
    case MatrixLedCmd(x, y, r, g, b) =>
      var p := MatrixLedPayload(x, y, r, g, b);
      assert p[2..] == [p[2], p[3], p[4]];
  }

  /** Whatever `Decode` accepts is exactly the packet the encoder produces for the decoded command. */
  lemma EncodeDecode(f: seq<Byte>)
    requires Decode(f).Some?
    ensures Encode(Decode(f).value) == f
  {
    DeframeSound(f, HeaderLength);
    var (header, p) := Deframe(f, HeaderLength).value;
    var c := Decode(f).value;
    assert Header(c) == header;
    match c
    case WakeCmd =>
    case DriveCmd(speed, heading, reverse) =>
      assert DrivePayload(speed, heading, reverse) == p;
    case MainLedCmd(r, g, b) =>
      assert MainLedPayload(r, g, b) == p;
    case MatrixLedCmd(x, y, r, g, b) =>
      assert MatrixLedPayload(x, y, r, g, b) == p;
  }

  /** Two commands write the same packet exactly when they agree once clamped. */
  lemma EncodeInjective(a: Command, b: Command)
    ensures Encode(a) == Encode(b) <==> Normalize(a) == Normalize(b)
  {
    DecodeEncode(a);
    DecodeEncode(b);
    EncodeNormalize(a);
    EncodeNormalize(b);
  }

  /**
   The driver's literal wake packet is the generic framing of the wake header
   (or of its first four octets with `0D FF` as payload) with the checksum formula.
   */
  lemma WakeFrameMatchesCodec()
    ensures Encode(WakeCmd) == WakeFrame
    ensures Frame([0x38, 0x11, 0x01, 0x13], [0x0D, 0xFF]) == WakeFrame
    ensures Decode(WakeFrame) == Some(WakeCmd)
  {
    WakeChecksum();
    assert WakeHeader + [] == WakeHeader;
    assert [0x38, 0x11, 0x01, 0x13] + [0x0D, 0xFF] == WakeHeader;
    DecodeEncode(WakeCmd);
  }

  /** The octets of the wake header sum to 361, so its checksum is `0x96`. */
  lemma WakeChecksum()
    ensures Checksum(WakeHeader) == 0x96
  {
    var h := WakeHeader;
    assert Sum(h[5..]) == 0xFF by { assert h[5..][1..] == []; }
    assert Sum(h[4..]) == 0x0D + 0xFF by { assert h[4..][1..] == h[5..]; }
    assert Sum(h[3..]) == 0x13 + 0x0D + 0xFF by { assert h[3..][1..] == h[4..]; }
    assert Sum(h[2..]) == 0x01 + 0x13 + 0x0D + 0xFF by { assert h[2..][1..] == h[3..]; }
    assert Sum(h[1..]) == 0x11 + 0x01 + 0x13 + 0x0D + 0xFF by { assert h[1..][1..] == h[2..]; }
    assert Sum(h) == 361;
  }

  /** `drive(300, 400, False)` writes the same packet as `drive(255, 359, False)`. */
  lemma DriveClampExample()
    ensures Encode(DriveCmd(300, 400, false)) == Encode(DriveCmd(255, 359, false))
    ensures DrivePayload(300, 400, false) == [255, 1, 103, 0]
  {
  }

  /** `set_matrix_led(10, -1, …)` addresses the pixel (7, 0). */
  lemma MatrixClampExample(red: int, green: int, blue: int)
    ensures MatrixLedPayload(10, -1, red, green, blue)[..2] == [7, 0]
  {
  }
}

=== FILE: device.dfy ===
/**
 The session state machine of the Sphero BOLT+ driver (SBP_SDK.py,
 `SpheroBoltPlus`): the two flags `is_connected` and `is_awake`, changed by
 `connect`, `disconnect` and `wake`, and the guard every command passes.

 The transport is abstract: each open, characteristic lookup, write and close
 is a `bool` saying whether it succeeded (a raised exception is `false`; a
 lookup that raises skips the close, which `Connect` reads as a missing
 characteristic whose close failed). The
 session also records, in order, every packet handed to the transport's write,
 whatever its outcome, so that "nothing was written" can be stated.
 */
module Device {
  import opened Wrappers
  import opened Codec
  import opened Commands

  /** `is_connected`, `is_awake`, and the packets written so far. */
  datatype Session = Session(connected: bool, awake: bool, writes: seq<seq<Byte>>)

  /** The result of one operation: the next session and the boolean the driver returns. */
  datatype Outcome = Outcome(session: Session, ok: bool)

  /** A freshly constructed driver. */
  const Initial := Session(false, false, [])

  /** The session after handing one more packet to the transport. */
  function Written(s: Session, frame: seq<Byte>): Session {
    s.(writes := s.writes + [frame])
  }

  /**
   `wake`: writes the literal wake packet with no connection check; the awake
   flag is set only when that write succeeds, and the result is the write's.
   */
  function Wake(s: Session, writeOk: bool): (r: Outcome)
    ensures r.ok == writeOk
    ensures r.session.writes == s.writes + [WakeFrame]
    ensures Decode(r.session.writes[|s.writes|]) == Some(WakeCmd)
    ensures r.session.connected == s.connected
    ensures r.session.awake == (s.awake || writeOk)
  {
    WakeFrameMatchesCodec();
    var t := Written(s, WakeFrame);
    if writeOk then Outcome(t.(awake := true), true) else Outcome(t, false)
  }

  /**
   `connect`: `openOk` is whether creating the client and opening the link
   succeeded, `charFound` whether the control characteristic was found,
   `closeOk` whether the disconnect after a missing characteristic succeeded,
   and `wakeOk` whether the wake write succeeded. A lookup that raises goes
   straight to the exception handler, exactly as a failed close does: it is
   `charFound == false` with `closeOk == false`.
   */
  function Connect(s: Session, openOk: bool, charFound: bool, closeOk: bool, wakeOk: bool): (r: Outcome)
    // success is decided by the link and the characteristic alone, never by the wake
    ensures r.ok <==> openOk && charFound
    ensures r.ok ==> r.session.connected
    ensures r.ok ==> r.session.writes == s.writes + [WakeFrame]
    ensures r.ok ==> r.session.awake == (s.awake || wakeOk)
    // a failed open clears only the connection flag
    ensures !openOk ==> r.session == s.(connected := false)
    // a missing characteristic never sets the connection flag; it clears it when the close fails
    ensures openOk && !charFound ==> r.session == s.(connected := s.connected && closeOk)
    // the awake flag is never cleared by a connect
    ensures s.awake ==> r.session.awake
  {
    if !openOk then Outcome(s.(connected := false), false)
    else if !charFound then
      if closeOk then Outcome(s, false) else Outcome(s.(connected := false), false)
    else
      var w := Wake(s.(connected := true), wakeOk);
      Outcome(w.session, true)
  }

  /**
   `disconnect`: a no-op success when not connected; otherwise a successful
   close clears both flags and a failed one changes nothing.
   */
  function Disconnect(s: Session, closeOk: bool): (r: Outcome)
    ensures r.session.writes == s.writes
    ensures !s.connected ==> r == Outcome(s, true)
    ensures s.connected ==> r.ok == closeOk
    ensures s.connected && closeOk ==> !r.session.connected && !r.session.awake
    ensures !r.ok ==> r.session == s
    ensures !r.session.connected
            || (s.connected && !closeOk && r.session == s)
  {
    if !s.connected then Outcome(s, true)
    else if closeOk then Outcome(Session(false, false, s.writes), true)
    else Outcome(s, false)
  }

  /**
   `_send_command`: refuses when not connected; otherwise writes the framed
   packet and returns the write's outcome, leaving both flags as they were.
   */
  function SendCommand(s: Session, header: seq<Byte>, payload: seq<Byte>, writeOk: bool): (r: Outcome)
    ensures !s.connected ==> r == Outcome(s, false)
    ensures s.connected ==> r.ok == writeOk
    ensures s.connected ==> r.session.connected == s.connected && r.session.awake == s.awake
    ensures s.connected ==> |r.session.writes| == |s.writes| + 1
                            && r.session.writes[..|s.writes|] == s.writes
                            && Deframe(r.session.writes[|s.writes|], |header|) == Some((header, payload))
  {
    if !s.connected then Outcome(s, false)
    else
      DeframeFrame(header, payload);
      Outcome(Written(s, Frame(header, payload)), writeOk)
  }

  /** Both flags hold: the only state in which a command is sent. */
  predicate Ready(s: Session) {
    s.connected && s.awake
  }

  /** The shared guard of `drive`, `set_main_led` and `set_matrix_led`. */
  function Guarded(s: Session, c: Command, writeOk: bool): (r: Outcome)
    requires !c.WakeCmd?
    ensures !Ready(s) ==> r == Outcome(s, false)
    ensures Ready(s) ==> r == Outcome(Written(s, Encode(c)), writeOk)
    ensures Ready(s) ==> Decode(r.session.writes[|s.writes|]) == Some(Normalize(c))
  {
    DecodeEncode(c);
    if !Ready(s) then Outcome(s, false)
    else SendCommand(s, Header(c), Payload(c), writeOk)
  }

  /** `drive`: guarded; writes the clamped speed, heading and reverse flag. */
  function Drive(s: Session, speed: int, heading: int, reverse: bool, writeOk: bool): (r: Outcome)
    ensures !Ready(s) ==> r == Outcome(s, false)
    ensures Ready(s) ==> r.ok == writeOk
                         && r.session == Written(s, Frame(DriveHeader, DrivePayload(speed, heading, reverse)))
    ensures Ready(s) ==> Decode(r.session.writes[|s.writes|])
                         == Some(DriveCmd(Clamp(speed, 0, MaxSpeed), Clamp(heading, 0, MaxHeading),
                                          reverse))
  {
    Guarded(s, DriveCmd(speed, heading, reverse), writeOk)
  }

  /** `set_main_led`: guarded; writes the three clamped channels. */
  function SetMainLed(s: Session, red: int, green: int, blue: int, writeOk: bool): (r: Outcome)
    ensures !Ready(s) ==> r == Outcome(s, false)
    ensures Ready(s) ==> r.ok == writeOk
                         && r.session == Written(s, Frame(MainLedHeader, MainLedPayload(red, green, blue)))
    ensures Ready(s) ==> Decode(r.session.writes[|s.writes|])
                         == Some(MainLedCmd(Clamp(red, 0, MaxChannel), Clamp(green, 0, MaxChannel),
                                            Clamp(blue, 0, MaxChannel)))
  {
    Guarded(s, MainLedCmd(red, green, blue), writeOk)
  }

  /** `set_matrix_led`: guarded; writes the clamped pixel position and colour. */
  function SetMatrixLed(s: Session, x: int, y: int, red: int, green: int, blue: int, writeOk: bool)
    : (r: Outcome)
    ensures !Ready(s) ==> r == Outcome(s, false)
    ensures Ready(s) ==> r.ok == writeOk
                         && r.session
                            == Written(s, Frame(MatrixLedHeader, MatrixLedPayload(x, y, red, green, blue)))
    ensures Ready(s) ==> Decode(r.session.writes[|s.writes|])
                         == Some(MatrixLedCmd(Clamp(x, 0, MaxCoordinate), Clamp(y, 0, MaxCoordinate),
                                              Clamp(red, 0, MaxChannel), Clamp(green, 0, MaxChannel),
                                              Clamp(blue, 0, MaxChannel)))
  {
    Guarded(s, MatrixLedCmd(x, y, red, green, blue), writeOk)
  }

  /** One call on the driver, together with the transport outcomes it meets. */
  datatype Op =
    | ConnectOp(openOk: bool, charFound: bool, closeOk: bool, wakeOk: bool)
    | DisconnectOp(closeOk: bool)
    | WakeOp(writeOk: bool)
    | DriveOp(speed: int, heading: int, reverse: bool, writeOk: bool)
    | MainLedOp(red: int, green: int, blue: int, writeOk: bool)
    | MatrixLedOp(x: int, y: int, red: int, green: int, blue: int, writeOk: bool)

  function Apply(s: Session, op: Op): Outcome {
    match op
    case ConnectOp(openOk, charFound, closeOk, wakeOk) => Connect(s, openOk, charFound, closeOk, wakeOk)
    case DisconnectOp(closeOk) => Disconnect(s, closeOk)
    case WakeOp(writeOk) => Wake(s, writeOk)
    case DriveOp(speed, heading, reverse, writeOk) => Drive(s, speed, heading, reverse, writeOk)
    case MainLedOp(red, green, blue, writeOk) => SetMainLed(s, red, green, blue, writeOk)
    case MatrixLedOp(x, y, red, green, blue, writeOk) => SetMatrixLed(s, x, y, red, green, blue, writeOk)
  }

  /** The session after a sequence of calls, in order. */
  function Run(s: Session, ops: seq<Op>): Session
    decreases |ops|
  {
    if |ops| == 0 then s else Run(Apply(s, ops[0]).session, ops[1..])
  }

  /** Every recorded packet is a well-formed command packet. */
  ghost predicate TraceDecodes(s: Session) {
    forall i :: 0 <= i < |s.writes| ==> Decode(s.writes[i]).Some?
  }

  /** The awake flag is only ever set after a wake packet went out. */
  ghost predicate AwakeAfterWake(s: Session) {
    s.awake ==> WakeFrame in s.writes
  }

  ghost predicate Invariant(s: Session) {
    TraceDecodes(s) && AwakeAfterWake(s)
  }

  /**
   A single call keeps the invariant, only appends to the trace (at most one
   packet), and appends a non-wake packet only when the session was ready.
   */
  lemma ApplyStep(s: Session, op: Op)
    requires Invariant(s)
    ensures var t := Apply(s, op).session;
      && Invariant(t)
      && |s.writes| <= |t.writes| <= |s.writes| + 1
      && t.writes[..|s.writes|] == s.writes
      && (|t.writes| > |s.writes| && t.writes[|s.writes|] != WakeFrame ==> Ready(s))
  {
    var t := Apply(s, op).session;
    if t.writes != s.writes {
      assert |t.writes| == |s.writes| + 1;
      ExtendedKeepsInvariant(s, t);
    }
  }

  /** Appending one readable packet keeps the invariant, provided the awake flag is backed. */
  lemma ExtendedKeepsInvariant(s: Session, t: Session)
    requires Invariant(s)
    requires |t.writes| == |s.writes| + 1 && t.writes[..|s.writes|] == s.writes
    requires Decode(t.writes[|s.writes|]).Some?
    requires t.awake ==> s.awake || t.writes[|s.writes|] == WakeFrame
    ensures Invariant(t)
  {
    forall i | 0 <= i < |t.writes|
      ensures Decode(t.writes[i]).Some?
    {
      if i < |s.writes| {
        assert t.writes[i] == s.writes[i];
      }
    }
    if t.awake && t.writes[|s.writes|] != WakeFrame {
      var i :| 0 <= i < |s.writes| && s.writes[i] == WakeFrame;
      assert t.writes[i] == WakeFrame;
    }
  }

  /** The invariant holds after any sequence of calls, and the trace only grows. */
  lemma {:induction false} RunInvariant(s: Session, ops: seq<Op>)
    requires Invariant(s)
    ensures Invariant(Run(s, ops))
    ensures |s.writes| <= |Run(s, ops).writes|
    ensures Run(s, ops).writes[..|s.writes|] == s.writes
    decreases |ops|
  {
    if |ops| > 0 {
      var t := Apply(s, ops[0]).session;
      ApplyStep(s, ops[0]);
      RunInvariant(t, ops[1..]);
      var u := Run(t, ops[1..]);
      assert u.writes[..|s.writes|] == u.writes[..|t.writes|][..|s.writes|];
    }
  }

  /** Everything a driver ever writes, from construction on, is a valid command packet. */
  lemma ReachableTraceDecodes(ops: seq<Op>)
    ensures TraceDecodes(Run(Initial, ops))
    ensures Run(Initial, ops).awake ==> WakeFrame in Run(Initial, ops).writes
  {
    RunInvariant(Initial, ops);
  }

  /**
   The flags may read "awake but not connected": a connect that succeeds with
   the wake, followed by a connect whose open fails.
   */
  lemma AwakeWithoutConnection()
    ensures var s := Run(Initial, [ConnectOp(true, true, true, true), ConnectOp(false, false, false, false)]);
      s.awake && !s.connected
  {
    var s1 := Apply(Initial, ConnectOp(true, true, true, true)).session;
    assert s1.awake;
  }

  /** A connect that succeeds writes the wake packet and nothing else. */
  lemma ConnectWritesOnlyWake(s: Session, closeOk: bool, wakeOk: bool)
    ensures Connect(s, true, true, closeOk, wakeOk).session.writes == s.writes + [WakeFrame]
    ensures Connect(Initial, true, true, closeOk, wakeOk).session
            == Session(true, wakeOk, [WakeFrame])
  {
  }

  /** Once a disconnect has reported success, another one succeeds and changes nothing. */
  lemma DisconnectIdempotent(s: Session, first: bool, second: bool)
    requires Disconnect(s, first).ok
    ensures var t := Disconnect(s, first).session;
      !t.connected && Disconnect(t, second) == Outcome(t, true)
  {
  }
}

=== FILE: wrappers.dfy ===
/** The optional-value datatype the decoders of this model return. */
module Wrappers {

  /** `None` when a byte sequence is not a well-formed value, `Some` otherwise. */
  datatype Option<+T> = None | Some(value: T)
}
